=== FILE: README.md ===
# Selective blurring of YOLO detections — a Dafny model

`yolo_real_time.py` reads camera frames, runs a YOLOv3 network on each one and,
depending on two flags, blurs the inside of the detected boxes, everything
outside them, or the whole frame. This project models the pure logic inside
the frame loop and proves properties of it:

- the label filter `is_blurrable`, with Python's `str.split(',')` written out
  (`pystr.dfy`, `blurrable.dfy`);
- the detection decoder over all layer outputs. It picks the first best class
  score from index 5 on, keeps only scores strictly above `--confidence`, and
  turns the normalized centre box into an integer top-left pixel box, truncating
  toward zero twice (`numeric.dfy`, `decoder.dfy`);
- the blur dispatch after non-maximum suppression. Regions are numpy basic
  slices `frame[y:y+h, x:x+w]`, so a negative start wraps and both bounds clip
  (`geometry.dfy`, `pyslice.dfy`, `image.dfy`, `blurpolicy.dfy`);
- one frame end to end: decode, suppress, blur (`pipeline.dfy`).

Frames are grids of BGR byte pixels. `cv2.GaussianBlur` is a parameter,
`kernel(frame, row, column)`: the blurred value of one pixel as a function of
the whole input frame. The run's kernel size is folded into it. Because of this
shape, a blurred frame always has the same size as its input.
`cv2.dnn.NMSBoxes` is an opaque parameter of `Pipeline.ProcessFrame` that
returns the kept indices. The network's forward pass is an input: the layer
outputs, as rows of reals.

Python exceptions become `Outcome.Result` errors. A row with five entries or
fewer makes `np.argmax` raise `ValueError`, which stops the run. A kept index
outside the lists, or a class ID with no label, raises `IndexError`.

Three behaviours of the code are easy to misread, and the model follows the
code in each:

- **Empty filter list.** The `len(splitted) == 0` branch (line 38-39) returns 1,
  which suggests an empty `--list-blurrable` was meant to match every label.
  But `"".split(',')` is `[""]`, so that branch never fires and no real label
  is blurrable (`Blurrable.EmptyListMatchesOnlyEmptyLabel`). Consequences: with
  the default list, `--blur-inside` changes nothing. `--blur-outside` blurs the
  whole frame as soon as anything is kept (`BlurPolicy.DefaultListEffect`).
- **No clamping.** The code slices the frame with the box coordinates as they
  are (line 137, 150). A box no wider (or taller) than the frame that starts
  left of (or above) it has a negative start, which counts from the far edge,
  and its region selects nothing (`PySlice.NegativeStartSelectsNothing`). So
  in inside mode its visible part is not blurred, and in outside mode it is
  not restored and stays blurred (`BlurPolicy.OutsideModePixels`).
  Wider boxes, starts below minus the frame size, and boxes lying wholly
  left of (or above) the frame, which select a strip at the far edge, give
  other slices; `PySlice.Indices` states them all.
- **What gets blurred.** Each inside-mode step blurs the whole current frame,
  then copies the box's region of it back (line 136-137). So pixels near a box
  edge mix in values from outside the box, and a later box sees earlier boxes
  already blurred (`BlurPolicy.BlurInsideBoxesAppend`). The order of the kept
  indices therefore matters, and the filter keeps it
  (`BlurPolicy.OnlyBlurrableAppend`).

## Model

| member | source | states |
|---|---|---|
| PyStr.Split | yolo_real_time.py:37-38 | `split(',')` always yields at least one field, so `len(splitted)` is never 0 |
| PyStr.SplitFieldsSepFree | yolo_real_time.py:37 | no field contains the separator |
| PyStr.JoinSplit | yolo_real_time.py:37 | joining the fields with the separator gives back the original string |
| PyStr.SplitJoin | yolo_real_time.py:37 | splitting the join of separator-free fields gives back those fields |
| PyStr.SplitAppend | yolo_real_time.py:37 | the fields of `a + sep + b` are the fields of `a` followed by those of `b` |
| PyStr.SplitNoSep | yolo_real_time.py:37 | a string with no separator splits into just itself |
| PyStr.FieldPlace | yolo_real_time.py:37 | every field of the split occupies a slice of the string that starts at its start or after a separator, and ends at its end or at a separator |
| PyStr.PlacedIsField | yolo_real_time.py:37 | conversely, a separator-free slice so delimited is one of the fields |
| PyStr.FieldIff | yolo_real_time.py:37-43 | a string is among the split fields iff it is a separator-free slice delimited by separators or the string's ends |
| Blurrable.ScanFields | yolo_real_time.py:41-44 | the loop returns 1 iff some field equals the item exactly, and 0 otherwise |
| Blurrable.IsBlurrable | yolo_real_time.py:36-44 | `is_blurrable` returns 0 or 1, and 1 iff the item is exactly a comma-delimited field of the list (case-sensitive, no trimming, no partial match) |
| Blurrable.EmptySplitBranchDead | yolo_real_time.py:37-41 | the `len(splitted) == 0` branch never decides: the result is always that of the scan |
| Blurrable.EmptyListMatchesOnlyEmptyLabel | yolo_real_time.py:36-44 | with the default empty list, the result is 1 only for the empty label |
| Blurrable.CatDogMatches | yolo_real_time.py:36-44 | against the list `"cat,dog"` exactly the labels `"cat"` and `"dog"` match |
| Blurrable.TwoFieldExamples | yolo_real_time.py:36-44 | `"dog"` matches in `"cat,dog"`; the partial `"do"` does not |
| Blurrable.OneFieldExamples | yolo_real_time.py:36-44 | `"cat"` does not match `"dog"`, and the differently cased `"Person"` does not match `"person"` |
| Numeric.Trunc | yolo_real_time.py:106 | the integer cast is the integer nearest the value on the zero side, within 1 |
| Numeric.TruncTowardZero | yolo_real_time.py:109-110 | truncation keeps the sign and never moves away from zero |
| Numeric.TruncHalfDifference | yolo_real_time.py:109-110 | `int(c - w / 2)` is `2c - w` halved toward zero, and is exactly `c - w/2` for even `w` |
| Numeric.ArgMax | yolo_real_time.py:98 | `np.argmax` returns an index of the maximum such that every earlier entry is strictly smaller |
| Numeric.ArgMaxUnique | yolo_real_time.py:98 | only one index is both maximal and strictly above all earlier entries |
| Decoder.PixelBox | yolo_real_time.py:105-113 | width and height are the truncated scaled sizes, and the integer box is centred on the truncated centre to within half a pixel in each direction |
| Decoder.DecodeRow | yolo_real_time.py:95-115 | a row errs iff it has no class scores; otherwise it yields a candidate iff some score from index 5 on is strictly above the threshold. The candidate has the first best class, its score and the pixel box |
| Decoder.DecodeRows | yolo_real_time.py:94-115 | decoding succeeds iff every row has class scores, and yields at most one candidate per row |
| Decoder.DecodeRowsAppend | yolo_real_time.py:94-95 | decoding `a + b` gives the candidates of `a` followed by those of `b`, so row order is kept within and across layers |
| Decoder.DecodeSingleRow | yolo_real_time.py:97-102 | a single well-formed row gives one candidate if some class score beats the threshold, and none otherwise |
| Decoder.DecodeAll | yolo_real_time.py:90-115 | decoding every layer output either fails with `ValueError` or gives three parallel lists with at most one entry per row |
| Decoder.DecodeAllFails | yolo_real_time.py:94-98 | decoding all layer outputs fails with `ValueError` iff some row of some layer has no class scores |
| Decoder.BoxArithmetic | yolo_real_time.py:105-113 | width and height are the truncated scaled sizes; the corner is the truncated centre minus half the size, rounded toward zero; the box is centred on the truncated centre within half a pixel |
| Decoder.CentredDetection | yolo_real_time.py:105-113 | a 0.2 by 0.2 box centred at (0.5, 0.5), with score 0.9 for class 0 in a 640x640 frame, decodes to box `[256, 256, 128, 128]` |
| Decoder.DecodeOutputs | yolo_real_time.py:90-115 | the nested loop equals the functional decoder, and its three lists stay parallel with at most one entry per row |
| Decoder.DecodeLayer | yolo_real_time.py:95-115 | the loop over one layer's rows extends the lists exactly as decoding the rows so far does, or fails on a row without scores |
| PySlice.Indices | yolo_real_time.py:137 | a slice `[start:stop]` selects exactly the in-bounds positions from `start` up to before `stop`, where a negative bound counts from the end |
| PySlice.NonNegativeBounds | yolo_real_time.py:137 | with non-negative bounds, a slice is the plain range cut off at the end |
| PySlice.NegativeStartSelectsNothing | yolo_real_time.py:133-137 | a slice whose start is negative but not below minus the size, and whose end is not negative and at most the size plus the start, selects no position at all |
| Image.Blur | yolo_real_time.py:125 | the blurred frame has the input's shape, and each of its pixels is the kernel applied to the whole input frame at that position |
| Image.CopyRegion | yolo_real_time.py:137 | the region assignment writes the source pixel inside both slices and keeps every other pixel |
| BlurPolicy.OnlyBlurrable | yolo_real_time.py:127-128 | the filtered kept list holds exactly the kept indices whose label is blurrable |
| BlurPolicy.OnlyBlurrableAppend | yolo_real_time.py:126-128 | filtering `a + b` gives the filtered `a` followed by the filtered `b`, so the kept blurrable indices keep their order and repetitions |
| BlurPolicy.OnlyBlurrableSingle | yolo_real_time.py:127-128 | a single kept index survives the filter exactly when its label is blurrable |
| BlurPolicy.BlurInsideBoxes | yolo_real_time.py:126-137 | the inside loop keeps the frame's shape (its result is determined by `BlurInsideBoxesAppend` and `BlurInsideBoxesSingle`) |
| BlurPolicy.BlurInsideBoxesAppend | yolo_real_time.py:126-137 | the inside loop over `a + b` is the loop over `b` run on the frame the loop over `a` produced, so each box blurs the frame as earlier boxes left it |
| BlurPolicy.BlurInsideBoxesSingle | yolo_real_time.py:127-137 | one step of the inside loop: a blurrable box's region is copied from the blur of the current frame; a non-blurrable box changes nothing |
| BlurPolicy.RestoreBoxes | yolo_real_time.py:141-150 | the outside loop keeps the frame's shape (its pixels are stated by `RestoreBoxesAt`) |
| BlurPolicy.ApplyBlur | yolo_real_time.py:122-150 | the frame keeps its shape. It is unchanged when nothing is kept, or when neither flag is set. With both flags and something kept, it is the blurred frame |
| BlurPolicy.InsideKeepsUncovered | yolo_real_time.py:127-137 | the inside loop leaves every pixel outside all kept blurrable regions untouched |
| BlurPolicy.InsideIgnoresNonBlurrable | yolo_real_time.py:127-128 | the inside loop gives the same frame with the non-blurrable detections removed |
| BlurPolicy.RestoreBoxesAt | yolo_real_time.py:141-150 | after the outside loop, a covered pixel holds the original value and any other pixel keeps the blurred one |
| BlurPolicy.InsideModeUntouched | yolo_real_time.py:126-137 | in inside mode, every pixel outside the regions of the kept blurrable boxes is bit-identical to the input |
| BlurPolicy.InsideModeIgnoresNonBlurrable | yolo_real_time.py:126-137 | in inside mode, boxes whose label is not blurrable change no pixel |
| BlurPolicy.InsideModeSingleBox | yolo_real_time.py:126-137 | in inside mode with one blurrable kept box, its region holds the blurred frame and the rest is the input |
| BlurPolicy.OutsideModePixels | yolo_real_time.py:138-150 | in outside mode with something kept, a pixel in a kept blurrable region equals the original, and every other pixel equals the blurred frame |
| BlurPolicy.DefaultListEffect | yolo_real_time.py:122-150 | with the empty list and non-empty labels, outside mode blurs the whole frame once anything is kept, and inside mode changes nothing |
| BlurPolicy.PersonBlurredCarNot | yolo_real_time.py:126-137 | in inside mode with the list `"person"`, a kept car and a kept person blur only the person's region |
| Pipeline.ProcessFrame | yolo_real_time.py:94-161 | a processed frame keeps its shape; the frame fails with `ValueError` iff some row of some layer output has no class scores, and with `IndexError` iff decoding succeeds but a kept index is outside the lists or a kept class ID has no label; otherwise it is the blur dispatch applied to the kept indices |
| Pipeline.NothingKeptFrameUnchanged | yolo_real_time.py:118-125 | when suppression keeps nothing, the frame is returned unchanged in every mode, including with both flags set |
| Pipeline.BothFlagsBlurWholeFrame | yolo_real_time.py:122-125 | with both flags set and something kept, the result is the whole blurred frame |

## Left out

- Non-maximum suppression (`cv2.dnn.NMSBoxes`, line 118) is a foreign library call. It is the opaque `Suppressor` parameter; IoU and tie-breaking are not modelled.
- Image.Blur: the kernel is total, so it stands for a positive odd `--blur-size` (line 24). With an even or non-positive size, `cv2.GaussianBlur` raises `cv2.error` at lines 125, 136 and 140; that error path is not modelled, and `BlurPolicy.ApplyBlur` and the mode lemmas hold only for valid sizes.
- The Gaussian blur numerics (lines 125, 136, 140) are floating-point image filtering. They are the opaque `BlurKernel` parameter.
- Floating point: scores and box coordinates are Dafny reals. float32/float64 rounding and NaN scores (`np.argmax` on NaN) are not modelled.
- Argument parsing (lines 19-34) is not modelled. The options are the `Config` and `BlurConfig` values. This includes argparse's `type=bool`, which reads any non-empty string as true.
- Reading the label file, the random `COLORS` palette, and loading the network (lines 46-61) are I/O and randomness. The labels are a parameter.
- Camera capture, resizing, the video writer, `imshow` and the `waitKey` loop control (lines 63-75, 165-176) are I/O.
- The forward pass and its timing (lines 80-87) are the network and observability. Its outputs are an input of `Pipeline.ProcessFrame`.
- Drawing boxes and text (lines 151-163) is rendering. The model keeps only its effect on failure: its box and label lookups raise `IndexError` for a bad kept index, as `Pipeline.ProcessFrame` models.
- BlurPolicy.ApplyBlur: requires every kept index to address the lists and every kept class ID to have a label. In the script, violating this raises `IndexError`; that case is modelled one level up, in `Pipeline.ProcessFrame`.
- The unused helper `dier` (lines 15-17) is not modelled.

=== FILE: blurpolicy.dfy ===
/** The blur dispatch that follows non-maximum suppression: the two flags
    select no blur, blur inside the kept boxes, blur outside them, or blur the
    whole frame, and nothing happens at all when suppression kept nothing. */
module BlurPolicy {
  import opened Geometry
  import opened Decoder
  import opened Image
  import opened Blurrable
  import PyStr

  /** The blur options: `--blur-inside`, `--blur-outside` and the
      comma-separated `--list-blurrable`. */
  datatype BlurConfig = BlurConfig(blurInside: bool, blurOutside: bool, listBlurrable: string)

  /** Every kept index addresses the three lists, and every kept class ID has
      a label. */
  predicate WellIndexed(dets: Detections, labels: seq<string>, idxs: seq<nat>)
  {
    Parallel(dets) &&
    forall k :: 0 <= k < |idxs| ==> idxs[k] < |dets.boxes| && dets.classIDs[idxs[k]] < |labels|
  }

  /** Detection `i`'s label passes the filter. */
  predicate BlurrableAt(dets: Detections, labels: seq<string>, list: string, i: nat)
    requires i < |dets.classIDs| && dets.classIDs[i] < |labels|
  {
    IsBlurrable(list, labels[dets.classIDs[i]]) == 1
  }

  /** Pixel `(r, c)` lies in the slice region of some kept detection whose
      label is blurrable. */
  ghost predicate Covered(height: nat, width: nat, dets: Detections, labels: seq<string>, list: string,
                          idxs: seq<nat>, r: int, c: int)
    requires WellIndexed(dets, labels, idxs)
  {
    exists k :: 0 <= k < |idxs| && BlurrableAt(dets, labels, list, idxs[k]) &&
                InRegion(height, width, dets.boxes[idxs[k]], r, c)
  }

  /** The kept indices whose labels are blurrable, in order. */
  function OnlyBlurrable(dets: Detections, labels: seq<string>, list: string, idxs: seq<nat>): (kept: seq<nat>)
    requires WellIndexed(dets, labels, idxs)
    ensures WellIndexed(dets, labels, kept)
    ensures |kept| <= |idxs|
    ensures forall k :: 0 <= k < |kept| ==> kept[k] in idxs && BlurrableAt(dets, labels, list, kept[k])
    ensures forall k :: 0 <= k < |idxs| && BlurrableAt(dets, labels, list, idxs[k]) ==> idxs[k] in kept
  {
    if |idxs| == 0 then []
    else
      var rest := OnlyBlurrable(dets, labels, list, idxs[1..]);
      if BlurrableAt(dets, labels, list, idxs[0]) then [idxs[0]] + rest else rest
  }

  /** The filter of a concatenation is the concatenation of the filters, so
      the kept blurrable indices stay in the order (and with the repetitions)
      in which suppression returned them. */
  lemma {:induction false} OnlyBlurrableAppend(dets: Detections, labels: seq<string>, list: string,
                                               a: seq<nat>, b: seq<nat>)
    requires WellIndexed(dets, labels, a) && WellIndexed(dets, labels, b)
    ensures WellIndexed(dets, labels, a + b)
    ensures OnlyBlurrable(dets, labels, list, a + b) ==
      OnlyBlurrable(dets, labels, list, a) + OnlyBlurrable(dets, labels, list, b)
    decreases |a|
  {
    WellIndexedAppend(dets, labels, a, b);
    if |a| == 0 {
      assert a + b == b;
    } else {
      assert (a + b)[1..] == a[1..] + b;
      WellIndexedAppend(dets, labels, [a[0]], a[1..]);
      assert [a[0]] + a[1..] == a;
      OnlyBlurrableAppend(dets, labels, list, a[1..], b);
    }
  }

  /** Two well-indexed kept lists make a well-indexed one, and a well-indexed
      list splits into well-indexed parts. */
  lemma WellIndexedAppend(dets: Detections, labels: seq<string>, a: seq<nat>, b: seq<nat>)
    ensures WellIndexed(dets, labels, a + b) <==> WellIndexed(dets, labels, a) && WellIndexed(dets, labels, b)
  {
    if WellIndexed(dets, labels, a + b) {
      assert forall k :: 0 <= k < |a| ==> a[k] == (a + b)[k];
      assert forall k :: 0 <= k < |b| ==> b[k] == (a + b)[|a| + k];
    }
  }

  /** A single kept index survives the filter exactly when its label is
      blurrable. */
  lemma OnlyBlurrableSingle(dets: Detections, labels: seq<string>, list: string, i: nat)
    requires WellIndexed(dets, labels, [i])
    ensures i < |dets.classIDs| && dets.classIDs[i] < |labels|
    ensures OnlyBlurrable(dets, labels, list, [i]) == if BlurrableAt(dets, labels, list, i) then [i] else []
  {
    assert [i][0] == i;
    assert [i][1..] == [];
  }

  /** The `--blur-inside` loop: for each kept blurrable detection in turn,
      blur the current frame and copy the blurred box region back in. */
  function BlurInsideBoxes(frame: Frame, kernel: BlurKernel, dets: Detections, labels: seq<string>,
                           list: string, idxs: seq<nat>): (g: Frame)
    requires Rectangular(frame) && WellIndexed(dets, labels, idxs)
    ensures Rectangular(g) && SameShape(g, frame)
    decreases |idxs|
  {
    if |idxs| == 0 then frame
    else
      var i := idxs[0];
      var next := if BlurrableAt(dets, labels, list, i)
                  then CopyRegion(frame, Blur(kernel, frame), dets.boxes[i])
                  else frame;
      BlurInsideBoxes(next, kernel, dets, labels, list, idxs[1..])
  }

  /** The `--blur-outside` loop: on top of the blurred frame, copy back the
      original pixels of each kept blurrable detection's box region. */
  function RestoreBoxes(current: Frame, original: Frame, dets: Detections, labels: seq<string>,
                        list: string, idxs: seq<nat>): (g: Frame)
    requires Rectangular(current) && SameShape(original, current) && WellIndexed(dets, labels, idxs)
    ensures Rectangular(g) && SameShape(g, current)
    decreases |idxs|
  {
    if |idxs| == 0 then current
    else
      var i := idxs[0];
      var next := if BlurrableAt(dets, labels, list, i)
                  then CopyRegion(current, original, dets.boxes[i])
                  else current;
      RestoreBoxes(next, original, dets, labels, list, idxs[1..])
  }

  /** The dispatch of lines 122-150 on the frame, given the indices that
      non-maximum suppression kept. */
  function ApplyBlur(frame: Frame, kernel: BlurKernel, dets: Detections, labels: seq<string>,
                     cfg: BlurConfig, idxs: seq<nat>): (g: Frame)
    requires Rectangular(frame) && WellIndexed(dets, labels, idxs)
    ensures Rectangular(g) && SameShape(g, frame)
    ensures |idxs| == 0 ==> g == frame
    ensures !cfg.blurInside && !cfg.blurOutside ==> g == frame
    ensures |idxs| > 0 && cfg.blurInside && cfg.blurOutside ==> g == Blur(kernel, frame)
  {
    if |idxs| > 0 then
      if cfg.blurInside && cfg.blurOutside then Blur(kernel, frame)
      else if cfg.blurInside then BlurInsideBoxes(frame, kernel, dets, labels, cfg.listBlurrable, idxs)
      else if cfg.blurOutside then
        RestoreBoxes(Blur(kernel, frame), frame, dets, labels, cfg.listBlurrable, idxs)
      else frame
    else frame
  }

  /** The inside loop over `a + b` is the loop over `a` followed by the loop
      over `b` on the frame `a` left behind: each kept box blurs the frame as
      the earlier boxes have already changed it. */
  lemma {:induction false} BlurInsideBoxesAppend(frame: Frame, kernel: BlurKernel, dets: Detections,
                                                 labels: seq<string>, list: string, a: seq<nat>, b: seq<nat>)
    requires Rectangular(frame) && WellIndexed(dets, labels, a) && WellIndexed(dets, labels, b)
    ensures WellIndexed(dets, labels, a + b)
    ensures BlurInsideBoxes(frame, kernel, dets, labels, list, a + b) ==
      BlurInsideBoxes(BlurInsideBoxes(frame, kernel, dets, labels, list, a), kernel, dets, labels, list, b)
    decreases |a|
  {
    WellIndexedAppend(dets, labels, a, b);
    if |a| == 0 {
      assert a + b == b;
    } else {
      var i := a[0];
      assert (a + b)[0] == i && (a + b)[1..] == a[1..] + b;
      WellIndexedAppend(dets, labels, [i], a[1..]);
      assert [i] + a[1..] == a;
      var next := if BlurrableAt(dets, labels, list, i)
                  then CopyRegion(frame, Blur(kernel, frame), dets.boxes[i])
                  else frame;
      BlurInsideBoxesAppend(next, kernel, dets, labels, list, a[1..], b);
    }
  }

  /** One step of the inside loop: a blurrable kept box takes its region from
      the blur of the current frame; any other kept box changes nothing. */
  lemma BlurInsideBoxesSingle(frame: Frame, kernel: BlurKernel, dets: Detections,
                              labels: seq<string>, list: string, i: nat)
    requires Rectangular(frame) && WellIndexed(dets, labels, [i])
    ensures i < |dets.boxes| && dets.classIDs[i] < |labels|
    ensures BlurInsideBoxes(frame, kernel, dets, labels, list, [i]) ==
      if BlurrableAt(dets, labels, list, i) then CopyRegion(frame, Blur(kernel, frame), dets.boxes[i])
      else frame
  {
    assert [i][0] == i;
    assert [i][1..] == [];
  }

  /** Covering by a list is covering by its head or by its tail. */
  lemma CoveredCons(height: nat, width: nat, dets: Detections, labels: seq<string>, list: string,
                    idxs: seq<nat>, r: int, c: int)
    requires WellIndexed(dets, labels, idxs) && |idxs| > 0
    ensures WellIndexed(dets, labels, idxs[1..])
    ensures Covered(height, width, dets, labels, list, idxs, r, c) <==>
      (BlurrableAt(dets, labels, list, idxs[0]) && InRegion(height, width, dets.boxes[idxs[0]], r, c)) ||
      Covered(height, width, dets, labels, list, idxs[1..], r, c)
  {
    assert WellIndexed(dets, labels, idxs[1..]) by {
      forall k | 0 <= k < |idxs[1..]| ensures idxs[1..][k] == idxs[k + 1] { }
    }
    if Covered(height, width, dets, labels, list, idxs[1..], r, c) {
      var k :| 0 <= k < |idxs[1..]| && BlurrableAt(dets, labels, list, idxs[1..][k]) &&
               InRegion(height, width, dets.boxes[idxs[1..][k]], r, c);
      assert idxs[1..][k] == idxs[k + 1];
    }
    if Covered(height, width, dets, labels, list, idxs, r, c) {
      var k :| 0 <= k < |idxs| && BlurrableAt(dets, labels, list, idxs[k]) &&
               InRegion(height, width, dets.boxes[idxs[k]], r, c);
      if k > 0 {
        assert idxs[1..][k - 1] == idxs[k];
      }
    }
  }

  /** Inside mode changes only covered pixels: a pixel outside the slice
      regions of every kept blurrable detection keeps its input value. */
  lemma {:induction false} InsideKeepsUncovered(frame: Frame, kernel: BlurKernel, dets: Detections,
                                                labels: seq<string>, list: string, idxs: seq<nat>, r: int, c: int)
    requires Rectangular(frame) && WellIndexed(dets, labels, idxs)
    requires 0 <= r < |frame| && 0 <= c < Width(frame)
    requires !Covered(|frame|, Width(frame), dets, labels, list, idxs, r, c)
    ensures BlurInsideBoxes(frame, kernel, dets, labels, list, idxs)[r][c] == frame[r][c]
    decreases |idxs|
  {
    if |idxs| > 0 {
      var i := idxs[0];
      CoveredCons(|frame|, Width(frame), dets, labels, list, idxs, r, c);
      var next := if BlurrableAt(dets, labels, list, i)
                  then CopyRegion(frame, Blur(kernel, frame), dets.boxes[i])
                  else frame;
      assert next[r][c] == frame[r][c];
      assert Width(next) == Width(frame);
      InsideKeepsUncovered(next, kernel, dets, labels, list, idxs[1..], r, c);
    }
  }

  /** Inside mode ignores detections whose labels are not blurrable: the
      result is the same with them removed from the kept list. */
  lemma {:induction false} InsideIgnoresNonBlurrable(frame: Frame, kernel: BlurKernel, dets: Detections,
                                                     labels: seq<string>, list: string, idxs: seq<nat>)
    requires Rectangular(frame) && WellIndexed(dets, labels, idxs)
    ensures BlurInsideBoxes(frame, kernel, dets, labels, list, idxs) ==
            BlurInsideBoxes(frame, kernel, dets, labels, list, OnlyBlurrable(dets, labels, list, idxs))
    decreases |idxs|
  {
    if |idxs| > 0 {
      var i := idxs[0];
      var rest := OnlyBlurrable(dets, labels, list, idxs[1..]);
      WellIndexedAppend(dets, labels, [i], idxs[1..]);
      assert [i] + idxs[1..] == idxs;
      if BlurrableAt(dets, labels, list, i) {
        var next := CopyRegion(frame, Blur(kernel, frame), dets.boxes[i]);
        InsideIgnoresNonBlurrable(next, kernel, dets, labels, list, idxs[1..]);
        assert ([i] + rest)[1..] == rest;
      } else {
        InsideIgnoresNonBlurrable(frame, kernel, dets, labels, list, idxs[1..]);
      }
    }
  }

  /** Outside-mode restoring, pixel by pixel: a covered pixel takes the
      original value, any other pixel keeps the current one. */
  lemma {:induction false} RestoreBoxesAt(current: Frame, original: Frame, dets: Detections,
                                          labels: seq<string>, list: string, idxs: seq<nat>, r: int, c: int)
    requires Rectangular(current) && SameShape(original, current) && WellIndexed(dets, labels, idxs)
    requires 0 <= r < |current| && 0 <= c < Width(current)
    ensures RestoreBoxes(current, original, dets, labels, list, idxs)[r][c] ==
      if Covered(|current|, Width(current), dets, labels, list, idxs, r, c)
      then original[r][c] else current[r][c]
    decreases |idxs|
  {
    if |idxs| > 0 {
      var i := idxs[0];
      CoveredCons(|current|, Width(current), dets, labels, list, idxs, r, c);
      var next := if BlurrableAt(dets, labels, list, i)
                  then CopyRegion(current, original, dets.boxes[i])
                  else current;
      assert Width(next) == Width(current);
      RestoreBoxesAt(next, original, dets, labels, list, idxs[1..], r, c);
    }
  }

  /** Inside mode (`--blur-inside` alone): every pixel outside the regions of
      the kept blurrable detections is bit-identical to the input. */
  lemma InsideModeUntouched(frame: Frame, kernel: BlurKernel, dets: Detections, labels: seq<string>,
                            cfg: BlurConfig, idxs: seq<nat>, r: int, c: int)
    requires Rectangular(frame) && WellIndexed(dets, labels, idxs)
    requires cfg.blurInside && !cfg.blurOutside
    requires 0 <= r < |frame| && 0 <= c < Width(frame)
    requires !Covered(|frame|, Width(frame), dets, labels, cfg.listBlurrable, idxs, r, c)
    ensures ApplyBlur(frame, kernel, dets, labels, cfg, idxs)[r][c] == frame[r][c]
  {
    if |idxs| > 0 {
      InsideKeepsUncovered(frame, kernel, dets, labels, cfg.listBlurrable, idxs, r, c);
    }
  }

  /** Inside mode: kept detections whose labels are not blurrable change
      nothing; dropping them from the kept list gives the same frame. */
  lemma InsideModeIgnoresNonBlurrable(frame: Frame, kernel: BlurKernel, dets: Detections,
                                      labels: seq<string>, cfg: BlurConfig, idxs: seq<nat>)
    requires Rectangular(frame) && WellIndexed(dets, labels, idxs)
    requires cfg.blurInside && !cfg.blurOutside
    ensures ApplyBlur(frame, kernel, dets, labels, cfg, idxs) ==
      ApplyBlur(frame, kernel, dets, labels, cfg, OnlyBlurrable(dets, labels, cfg.listBlurrable, idxs))
  {
    InsideIgnoresNonBlurrable(frame, kernel, dets, labels, cfg.listBlurrable, idxs);
  }

  /** Inside mode with a single blurrable detection: its region holds the
      blurred frame and everything else is the input. */
  lemma InsideModeSingleBox(frame: Frame, kernel: BlurKernel, dets: Detections, labels: seq<string>,
                            cfg: BlurConfig, idxs: seq<nat>, i: nat)
    requires Rectangular(frame) && WellIndexed(dets, labels, idxs)
    requires cfg.blurInside && !cfg.blurOutside
    requires OnlyBlurrable(dets, labels, cfg.listBlurrable, idxs) == [i]
    ensures i < |dets.boxes|
    ensures ApplyBlur(frame, kernel, dets, labels, cfg, idxs) ==
      CopyRegion(frame, Blur(kernel, frame), dets.boxes[i])
  {
    InsideIgnoresNonBlurrable(frame, kernel, dets, labels, cfg.listBlurrable, idxs);
    assert [i][1..] == [];
  }

  /** Outside mode (`--blur-outside` alone) with something kept: a pixel in
      the region of a kept blurrable detection equals the original frame, and
      every other pixel equals the blurred frame. */
  lemma OutsideModePixels(frame: Frame, kernel: BlurKernel, dets: Detections, labels: seq<string>,
                          cfg: BlurConfig, idxs: seq<nat>, r: int, c: int)
    requires Rectangular(frame) && WellIndexed(dets, labels, idxs)
    requires !cfg.blurInside && cfg.blurOutside && |idxs| > 0
    requires 0 <= r < |frame| && 0 <= c < Width(frame)
    ensures ApplyBlur(frame, kernel, dets, labels, cfg, idxs)[r][c] ==
      if Covered(|frame|, Width(frame), dets, labels, cfg.listBlurrable, idxs, r, c)
      then frame[r][c] else Blur(kernel, frame)[r][c]
  {
    var blurred := Blur(kernel, frame);
    assert Width(blurred) == Width(frame);
    RestoreBoxesAt(blurred, frame, dets, labels, cfg.listBlurrable, idxs, r, c);
  }

  /** With the default empty list and real (non-empty) labels, outside mode
      blurs the whole frame as soon as anything is kept, and inside mode
      changes nothing. */
  lemma DefaultListEffect(frame: Frame, kernel: BlurKernel, dets: Detections, labels: seq<string>,
                          cfg: BlurConfig, idxs: seq<nat>)
    requires Rectangular(frame) && WellIndexed(dets, labels, idxs)
    requires cfg.listBlurrable == "" && |idxs| > 0
    requires forall k :: 0 <= k < |labels| ==> labels[k] != ""
    ensures !cfg.blurInside && cfg.blurOutside ==>
      ApplyBlur(frame, kernel, dets, labels, cfg, idxs) == Blur(kernel, frame)
    ensures cfg.blurInside && !cfg.blurOutside ==>
      ApplyBlur(frame, kernel, dets, labels, cfg, idxs) == frame
  {
    forall k | 0 <= k < |idxs|
      ensures !BlurrableAt(dets, labels, "", idxs[k])
    {
      EmptyListMatchesOnlyEmptyLabel(labels[dets.classIDs[idxs[k]]]);
    }
    var g := ApplyBlur(frame, kernel, dets, labels, cfg, idxs);
    var blurred := Blur(kernel, frame);
    if !cfg.blurInside && cfg.blurOutside {
      forall r | 0 <= r < |frame|
        ensures g[r] == blurred[r]
      {
        forall c | 0 <= c < |frame[r]|
          ensures g[r][c] == blurred[r][c]
        {
          OutsideModePixels(frame, kernel, dets, labels, cfg, idxs, r, c);
        }
      }
      assert g == blurred;
    }
    if cfg.blurInside && !cfg.blurOutside {
      InsideIgnoresNonBlurrable(frame, kernel, dets, labels, "", idxs);
      assert OnlyBlurrable(dets, labels, "", idxs) == [];
    }
  }

  /** Inside mode with the list "person", a kept car and a kept person: only
      the person's region is blurred; the car's region and the rest of the
      frame stay as they were. */
  lemma PersonBlurredCarNot(frame: Frame, kernel: BlurKernel, carBox: Box, personBox: Box)
    requires Rectangular(frame)
    ensures WellIndexed(CarAndPerson(carBox, personBox), ["person", "car"], [0, 1])
    ensures ApplyBlur(frame, kernel, CarAndPerson(carBox, personBox), ["person", "car"],
                      BlurConfig(true, false, "person"), [0, 1]) ==
            CopyRegion(frame, Blur(kernel, frame), personBox)
  {
    var dets := CarAndPerson(carBox, personBox);
    OnlyPersonBlurrable(carBox, personBox);
    InsideModeSingleBox(frame, kernel, dets, ["person", "car"], BlurConfig(true, false, "person"), [0, 1], 1);
  }

  /** Two detections: a car (class 1) and then a person (class 0). */
  function CarAndPerson(carBox: Box, personBox: Box): (d: Detections)
    ensures Parallel(d) && |d.boxes| == 2 && d.boxes[1] == personBox
  {
    Detections([carBox, personBox], [0.8, 0.9], [1, 0])
  }

  /** Of the car and the person, only the person passes the list "person". */
  lemma OnlyPersonBlurrable(carBox: Box, personBox: Box)
    ensures WellIndexed(CarAndPerson(carBox, personBox), ["person", "car"], [0, 1])
    ensures OnlyBlurrable(CarAndPerson(carBox, personBox), ["person", "car"], "person", [0, 1]) == [1]
  {
    var dets := CarAndPerson(carBox, personBox);
    var labels := ["person", "car"];
    PyStr.SplitNoSep("person", ',');
    assert !BlurrableAt(dets, labels, "person", 0);
    assert BlurrableAt(dets, labels, "person", 1);
    assert [0, 1][1..] == [1];
    assert [1][1..] == [];
  }
}

=== FILE: blurrable.dfy ===
/** The label filter `is_blurrable(list_blurrable, item)` of the script. */
module Blurrable {
  import opened PyStr

  /** The `for this_item in splitted` scan: 1 as soon as a field equals
      `item` exactly, 0 when the fields run out. */
  function ScanFields(fields: seq<string>, item: string): (r: int)
    ensures r == 0 || r == 1
    ensures r == 1 <==> exists k :: 0 <= k < |fields| && fields[k] == item
  {
    if |fields| == 0 then 0
    else if fields[0] == item then 1
    else ScanFields(fields[1..], item)
  }

  /** `is_blurrable`: split the comma-separated list and look for `item`
      among its fields; the `len(splitted) == 0` branch is kept as written. */
  function IsBlurrable(listBlurrable: string, item: string): (r: int)
    ensures r == 0 || r == 1
    ensures r == 1 <==> IsField(listBlurrable, ',', item)
  {
    var splitted := Split(listBlurrable, ',');
    FieldIff(listBlurrable, ',', item);
    if |splitted| == 0 then 1
    else ScanFields(splitted, item)
  }

  /** The `len(splitted) == 0` branch never decides the answer: the result is
      always that of the scan over at least one field. */
  lemma EmptySplitBranchDead(listBlurrable: string, item: string)
    ensures |Split(listBlurrable, ',')| >= 1
    ensures IsBlurrable(listBlurrable, item) == ScanFields(Split(listBlurrable, ','), item)
  {
  }

  /** With the default empty list only the empty label matches, so every real
      label is not blurrable. */
  lemma {:induction false} EmptyListMatchesOnlyEmptyLabel(item: string)
    ensures IsBlurrable("", item) == 1 <==> item == ""
  {
    assert Split("", ',') == [""];
  }

  /** Usage examples with two fields: an exact field matches, a partial one
      does not. */
  lemma TwoFieldExamples()
    ensures IsBlurrable("cat,dog", "dog") == 1
    ensures IsBlurrable("cat,dog", "do") == 0
  {
    CatDogMatches("dog");
    CatDogMatches("do");
  }

  /** Usage examples with one field: a different or differently-cased label
      does not match. */
  lemma OneFieldExamples()
    ensures IsBlurrable("dog", "cat") == 0
    ensures IsBlurrable("person", "Person") == 0
  {
    SingleField("dog");
    SingleField("person");
  }

  /** Against the list "cat,dog" exactly the labels "cat" and "dog" match. */
  lemma CatDogMatches(item: string)
    ensures IsBlurrable("cat,dog", item) == 1 <==> item == "cat" || item == "dog"
  {
    CatDogFields();
    assert ScanFields(["cat", "dog"], item) == 1 <==> item == ["cat", "dog"][0] || item == ["cat", "dog"][1];
  }

  /** "cat,dog" splits into "cat" and "dog". */
  lemma CatDogFields()
    ensures Split("cat,dog", ',') == ["cat", "dog"]
  {
    assert "cat,dog" == "cat" + [','] + "dog";
    SplitAppend("cat", "dog", ',');
    SingleField("cat");
    SingleField("dog");
  }

  /** A label without commas is a list of one field. */
  lemma SingleField(name: string)
    requires ',' !in name
    ensures Split(name, ',') == [name]
    ensures forall item :: IsBlurrable(name, item) == 1 <==> item == name
  {
    SplitNoSep(name, ',');
    assert [name][1..] == [];
  }
}

=== FILE: decoder.dfy ===
/** The detection decoder: the per-row loop over the network's layer outputs
    that turns raw rows into parallel lists of pixel boxes, confidences and
    class IDs. */
module Decoder {
  import opened Outcome
  import opened Numeric
  import opened Geometry

  /** One row of a layer output: `[cx, cy, w, h, objectness, score_0, ...]`,
      with the box normalized to the frame. */
  type Row = seq<real>

  /** What one accepted row contributes. */
  datatype Candidate = Candidate(box: Box, confidence: real, classID: nat)

  /** The three lists `boxes`, `confidences` and `classIDs`. */
  datatype Detections = Detections(boxes: seq<Box>, confidences: seq<real>, classIDs: seq<nat>)

  /** The three lists are parallel. */
  predicate Parallel(d: Detections)
  {
    |d.boxes| == |d.confidences| == |d.classIDs|
  }

  /** The layer outputs read one after another, rows in order. */
  function Flatten(layers: seq<seq<Row>>): (rows: seq<Row>)
  {
    if |layers| == 0 then []
    else Flatten(layers[..|layers| - 1]) + layers[|layers| - 1]
  }

  /** Scale the normalized centre box to the frame and move to the top-left
      corner, truncating toward zero once when the scaled box is cast to
      integers and once more after subtracting half the width (height). */
  function PixelBox(row: Row, frameW: nat, frameH: nat): (b: Box)
    requires |row| >= 4
    ensures b.width == Trunc(row[2] * frameW as real) && b.height == Trunc(row[3] * frameH as real)
    ensures -1 <= 2 * b.x + b.width - 2 * Trunc(row[0] * frameW as real) <= 1
    ensures -1 <= 2 * b.y + b.height - 2 * Trunc(row[1] * frameH as real) <= 1
  {
    var centerX := Trunc(row[0] * frameW as real);
    var centerY := Trunc(row[1] * frameH as real);
    var width := Trunc(row[2] * frameW as real);
    var height := Trunc(row[3] * frameH as real);
    Box(Trunc(centerX as real - width as real / 2.0),
        Trunc(centerY as real - height as real / 2.0),
        width, height)
  }

  /** Decode one row: `Err(ValueError)` when it has no class scores (argmax of
      an empty vector), `Ok(None)` when its best score does not beat the
      threshold, otherwise the candidate with the first best class. */
  function DecodeRow(row: Row, frameW: nat, frameH: nat, threshold: real): (r: Result<Option<Candidate>>)
    ensures r.Err? <==> |row| <= 5
    ensures r.Err? ==> r.error == ValueError
    ensures r.Ok? ==> (r.value.Some? <==> exists j :: 5 <= j < |row| && row[j] > threshold)
    ensures r.Ok? && r.value.Some? ==>
      var c := r.value.value;
      5 + c.classID < |row| &&
      c.confidence == row[5 + c.classID] &&
      c.confidence > threshold &&
      (forall j :: 5 <= j < |row| ==> row[j] <= c.confidence) &&
      (forall j :: 5 <= j < 5 + c.classID ==> row[j] < c.confidence) &&
      c.box == PixelBox(row, frameW, frameH)
  {
    if |row| <= 5 then Err(ValueError)
    else
      var scores := row[5..];
      var classID := ArgMax(scores);
      var confidence := scores[classID];
      assert forall j :: 5 <= j < |row| ==> row[j] == scores[j - 5];
      if confidence > threshold then
        Ok(Some(Candidate(PixelBox(row, frameW, frameH), confidence, classID)))
      else
        Ok(None)
  }

  /** Decode a run of rows in order, failing on the first row without scores. */
  function DecodeRows(rows: seq<Row>, frameW: nat, frameH: nat, threshold: real): (r: Result<seq<Candidate>>)
    ensures r.Ok? <==> forall i :: 0 <= i < |rows| ==> |rows[i]| > 5
    ensures r.Err? ==> r.error == ValueError
    ensures r.Ok? ==> |r.value| <= |rows|
  {
    if |rows| == 0 then Ok([])
    else Prepend(DecodeRow(rows[0], frameW, frameH, threshold), DecodeRows(rows[1..], frameW, frameH, threshold))
  }

  /** One row's outcome in front of the outcome of the rows after it; the
      first failure wins. */
  function Prepend(head: Result<Option<Candidate>>, tail: Result<seq<Candidate>>): Result<seq<Candidate>>
  {
    match head
    case Err(e) => Err(e)
    case Ok(None) => tail
    case Ok(Some(c)) =>
      match tail
      case Err(e) => Err(e)
      case Ok(cs) => Ok([c] + cs)
  }

  /** Two outcomes one after the other; the first failure wins. */
  function Concat(x: Result<seq<Candidate>>, y: Result<seq<Candidate>>): Result<seq<Candidate>>
  {
    if x.Err? then x else if y.Err? then y else Ok(x.value + y.value)
  }

  /** Prepending a row's outcome commutes with concatenating outcomes. */
  lemma PrependConcat(h: Result<Option<Candidate>>, x: Result<seq<Candidate>>, y: Result<seq<Candidate>>)
    ensures Prepend(h, Concat(x, y)) == Concat(Prepend(h, x), y)
  {
    if h.Ok? && h.value.Some? && x.Ok? && y.Ok? {
      var c := h.value.value;
      assert [c] + (x.value + y.value) == ([c] + x.value) + y.value;
    }
  }

  /** Split the candidates into the three parallel lists. */
  function Columns(cands: seq<Candidate>): (d: Detections)
    ensures Parallel(d) && |d.boxes| == |cands|
  {
    Detections(seq(|cands|, i requires 0 <= i < |cands| => cands[i].box),
               seq(|cands|, i requires 0 <= i < |cands| => cands[i].confidence),
               seq(|cands|, i requires 0 <= i < |cands| => cands[i].classID))
  }

  /** The decoder as a function of all layer outputs. */
  function DecodeAll(layers: seq<seq<Row>>, frameW: nat, frameH: nat, threshold: real): (r: Result<Detections>)
    ensures r.Err? ==> r.error == ValueError
    ensures r.Ok? ==> Parallel(r.value) && |r.value.boxes| <= |Flatten(layers)|
  {
    match DecodeRows(Flatten(layers), frameW, frameH, threshold)
    case Err(e) => Err(e)
    case Ok(cands) => Ok(Columns(cands))
  }

  /** Decoding distributes over concatenation: the candidates of `a + b` are
      those of `a` followed by those of `b`, so row order is kept across rows
      and across layers. */
  lemma {:induction false} DecodeRowsAppend(a: seq<Row>, b: seq<Row>, frameW: nat, frameH: nat, threshold: real)
    ensures DecodeRows(a + b, frameW, frameH, threshold) ==
      Concat(DecodeRows(a, frameW, frameH, threshold), DecodeRows(b, frameW, frameH, threshold))
  {
    if |a| == 0 {
      assert a + b == b;
      var rb := DecodeRows(b, frameW, frameH, threshold);
      if rb.Ok? {
        assert [] + rb.value == rb.value;
      }
    } else {
      var ab := a + b;
      assert ab[0] == a[0];
      assert ab[1..] == a[1..] + b;
      DecodeRowsAppend(a[1..], b, frameW, frameH, threshold);
      PrependConcat(DecodeRow(a[0], frameW, frameH, threshold),
                    DecodeRows(a[1..], frameW, frameH, threshold), DecodeRows(b, frameW, frameH, threshold));
    }
  }

  /** A single row decodes to at most one candidate, present exactly when one
      of its class scores beats the threshold. */
  lemma {:induction false} DecodeSingleRow(row: Row, frameW: nat, frameH: nat, threshold: real)
    requires |row| > 5
    ensures DecodeRows([row], frameW, frameH, threshold).Ok?
    ensures |DecodeRows([row], frameW, frameH, threshold).value| ==
      (if exists j :: 5 <= j < |row| && row[j] > threshold then 1 else 0)
  {
    assert [row][1..] == [];
    var r := DecodeRow(row, frameW, frameH, threshold);
    assert r.Ok?;
  }

  /** Every row of every layer is among the flattened rows. */
  lemma {:induction false} FlattenHas(layers: seq<seq<Row>>, li: nat, ri: nat)
    requires li < |layers| && ri < |layers[li]|
    ensures layers[li][ri] in Flatten(layers)
  {
    var last := |layers| - 1;
    if li < last {
      assert layers[..last][li] == layers[li];
      FlattenHas(layers[..last], li, ri);
    }
  }

  /** The box of a decoded row: the width and height are the truncated scaled
      sizes, and the corner is the truncated centre minus half the size,
      rounded toward zero, so the box is centred on the truncated centre to
      within half a pixel. */
  lemma BoxArithmetic(row: Row, frameW: nat, frameH: nat)
    requires |row| >= 4
    ensures var b := PixelBox(row, frameW, frameH);
      var cx := Trunc(row[0] * frameW as real);
      var cy := Trunc(row[1] * frameH as real);
      b.width == Trunc(row[2] * frameW as real) &&
      b.height == Trunc(row[3] * frameH as real) &&
      (2 * cx - b.width >= 0 ==> b.x == (2 * cx - b.width) / 2) &&
      (2 * cx - b.width < 0 ==> b.x == -((b.width - 2 * cx) / 2)) &&
      (2 * cy - b.height >= 0 ==> b.y == (2 * cy - b.height) / 2) &&
      (2 * cy - b.height < 0 ==> b.y == -((b.height - 2 * cy) / 2)) &&
      -1 <= 2 * b.x + b.width - 2 * cx <= 1 &&
      -1 <= 2 * b.y + b.height - 2 * cy <= 1
  {
    var b := PixelBox(row, frameW, frameH);
    TruncHalfDifference(Trunc(row[0] * frameW as real), b.width);
    TruncHalfDifference(Trunc(row[1] * frameH as real), b.height);
  }

  /** A detection centred in a 640x640 frame with a 0.2 by 0.2 box and a 0.9
      score for class 0 decodes to a 128-pixel square whose corner is (256, 256). */
  lemma CentredDetection()
    ensures DecodeRow([0.5, 0.5, 0.2, 0.2, 1.0, 0.9], 640, 640, 0.5)
      == Ok(Some(Candidate(Box(256, 256, 128, 128), 0.9, 0)))
  {
    var row: Row := [0.5, 0.5, 0.2, 0.2, 1.0, 0.9];
    assert Trunc(320.0) == 320;
    assert Trunc(128.0) == 128;
    assert Trunc(320.0 - 128.0 / 2.0) == 256;
    assert row[5..] == [0.9];
  }

  /** Appending a candidate appends to each of the three lists. */
  lemma ColumnsSnoc(cands: seq<Candidate>, c: Candidate)
    ensures Columns(cands + [c]) == Detections(Columns(cands).boxes + [c.box],
                                               Columns(cands).confidences + [c.confidence],
                                               Columns(cands).classIDs + [c.classID])
  {
  }

  /** Every flattened row comes from some row of some layer. */
  lemma {:induction false} FlattenFrom(layers: seq<seq<Row>>, row: Row)
    requires row in Flatten(layers)
    ensures exists li, ri :: 0 <= li < |layers| && 0 <= ri < |layers[li]| && layers[li][ri] == row
  {
    var last := |layers| - 1;
    if row in Flatten(layers[..last]) {
      FlattenFrom(layers[..last], row);
      var li, ri :| 0 <= li < last && 0 <= ri < |layers[..last][li]| && layers[..last][li][ri] == row;
      assert layers[li][ri] == row;
    } else {
      var ri :| 0 <= ri < |layers[last]| && layers[last][ri] == row;
    }
  }

  /** Decoding fails exactly when some row of some layer has no class scores;
      a single such row anywhere aborts the whole frame. */
  lemma DecodeAllFails(layers: seq<seq<Row>>, frameW: nat, frameH: nat, threshold: real)
    ensures DecodeAll(layers, frameW, frameH, threshold).Err? <==>
      exists li, ri :: 0 <= li < |layers| && 0 <= ri < |layers[li]| && |layers[li][ri]| <= 5
    ensures DecodeAll(layers, frameW, frameH, threshold).Err? ==>
      DecodeAll(layers, frameW, frameH, threshold).error == ValueError
  {
    var rows := Flatten(layers);
    if DecodeAll(layers, frameW, frameH, threshold).Err? {
      var i :| 0 <= i < |rows| && |rows[i]| <= 5;
      FlattenFrom(layers, rows[i]);
    }
    if li, ri :| 0 <= li < |layers| && 0 <= ri < |layers[li]| && |layers[li][ri]| <= 5 {
      FlattenHas(layers, li, ri);
    }
  }

  /** One more row extends the decoded prefix by that row's candidate, if any. */
  lemma DecodeStep(prefix: seq<Row>, row: Row, cands: seq<Candidate>, frameW: nat, frameH: nat, threshold: real)
    requires DecodeRows(prefix, frameW, frameH, threshold) == Ok(cands)
    requires |row| > 5
    ensures var k := ArgMax(row[5..]);
      DecodeRows(prefix + [row], frameW, frameH, threshold) ==
      Ok(if row[5..][k] > threshold
         then cands + [Candidate(PixelBox(row, frameW, frameH), row[5..][k], k)]
         else cands)
  {
    DecodeRowsAppend(prefix, [row], frameW, frameH, threshold);
    assert [row][1..] == [];
    var k := ArgMax(row[5..]);
    if row[5..][k] > threshold {
      var c := Candidate(PixelBox(row, frameW, frameH), row[5..][k], k);
      assert DecodeRow(row, frameW, frameH, threshold) == Ok(Some(c));
      assert DecodeRows([row][1..], frameW, frameH, threshold) == Ok([]);
      assert [c] + [] == [c];
      assert DecodeRows([row], frameW, frameH, threshold) == Ok([c]);
    } else {
      assert DecodeRow(row, frameW, frameH, threshold) == Ok(None);
      assert DecodeRows([row][1..], frameW, frameH, threshold) == Ok([]);
      assert DecodeRows([row], frameW, frameH, threshold) == Ok([]);
      assert cands + [] == cands;
    }
  }

  /** The decode loop as written: each layer output, each row, appending to
      the three lists together. */
  method DecodeOutputs(layerOutputs: seq<seq<Row>>, frameW: nat, frameH: nat, confidence: real)
    returns (r: Result<Detections>)
    ensures r == DecodeAll(layerOutputs, frameW, frameH, confidence)
    ensures r.Ok? ==> Parallel(r.value) && |r.value.boxes| <= |Flatten(layerOutputs)|
  {
    var lists := Detections([], [], []);
    ghost var cands: seq<Candidate> := [];
    for li := 0 to |layerOutputs|
      invariant DecodeRows(Flatten(layerOutputs[..li]), frameW, frameH, confidence) == Ok(cands)
      invariant Columns(cands) == lists
    {
      ghost var done := Flatten(layerOutputs[..li]);
      var layer;
      layer, cands := DecodeLayer(layerOutputs[li], frameW, frameH, confidence, done, cands, lists);
      if layer.Err? {
        var ri :| 0 <= ri < |layerOutputs[li]| && |layerOutputs[li][ri]| <= 5;
        FlattenHas(layerOutputs, li, ri);
        return layer;
      }
      lists := layer.value;
      assert layerOutputs[..li + 1][..li] == layerOutputs[..li];
    }
    assert layerOutputs[..|layerOutputs|] == layerOutputs;
    r := Ok(lists);
  }

  /** The inner loop over the rows of one layer output, extending lists
      already built from the rows `before`. */
  method DecodeLayer(output: seq<Row>, frameW: nat, frameH: nat, confidence: real,
                     ghost before: seq<Row>, ghost cands0: seq<Candidate>, lists: Detections)
    returns (r: Result<Detections>, ghost cands: seq<Candidate>)
    requires DecodeRows(before, frameW, frameH, confidence) == Ok(cands0)
    requires Columns(cands0) == lists
    ensures r.Err? ==> r == Err(ValueError) && exists ri :: 0 <= ri < |output| && |output[ri]| <= 5
    ensures r.Ok? ==> DecodeRows(before + output, frameW, frameH, confidence) == Ok(cands) &&
                      Columns(cands) == r.value
  {
    var boxes, confidences, classIDs := lists.boxes, lists.confidences, lists.classIDs;
    cands := cands0;
    assert before + output[..0] == before;
    for ri := 0 to |output|
      invariant DecodeRows(before + output[..ri], frameW, frameH, confidence) == Ok(cands)
      invariant Columns(cands) == Detections(boxes, confidences, classIDs)
    {
      var detection := output[ri];
      if |detection| <= 5 {
        return Err(ValueError), cands;
      }
      var scores := detection[5..];
      var classID := ArgMax(scores);
      var score := scores[classID];
      assert before + output[..ri + 1] == (before + output[..ri]) + [detection];
      DecodeStep(before + output[..ri], detection, cands, frameW, frameH, confidence);
      if score > confidence {
        var box := PixelBox(detection, frameW, frameH);
        ColumnsSnoc(cands, Candidate(box, score, classID));
        boxes := boxes + [box];
        confidences := confidences + [score];
        classIDs := classIDs + [classID];
        cands := cands + [Candidate(box, score, classID)];
      }
    }
    assert output[..|output|] == output;
    r := Ok(Detections(boxes, confidences, classIDs));
  }
}

=== FILE: geometry.dfy ===
/** Boxes in pixel coordinates, shared by the decoder that produces them and
    the frame operations that slice with them. */
module Geometry {
  /** A pixel box `[x, y, width, height]` with a top-left origin. */
  datatype Box = Box(x: int, y: int, width: int, height: int)
}

=== FILE: image.dfy ===
/** Frames as grids of pixels, the opaque Gaussian blur, and the numpy region
    assignment `dst[y:y+h, x:x+w] = src[y:y+h, x:x+w]`. */
module Image {
  import opened PySlice
  import opened Geometry

  newtype Byte = b: int | 0 <= b < 256

  /** One BGR pixel of an 8-bit colour frame. */
  datatype Pixel = Pixel(blue: Byte, green: Byte, red: Byte)

  /** A frame: rows of pixels, indexed `frame[row][column]`. */
  type Frame = seq<seq<Pixel>>

  /** The number of columns (`frame.shape[1]`). */
  function Width(f: Frame): nat
  {
    if |f| == 0 then 0 else |f[0]|
  }

  /** Every row has the frame's width, as for a numpy array. */
  predicate Rectangular(f: Frame)
  {
    forall r :: 0 <= r < |f| ==> |f[r]| == Width(f)
  }

  predicate SameShape(a: Frame, b: Frame)
  {
    |a| == |b| && forall r :: 0 <= r < |a| ==> |a[r]| == |b[r]|
  }

  /** `cv2.GaussianBlur` with the run's fixed kernel size, left uninterpreted:
      the blurred value at `(row, column)` as a function of the whole input
      frame. */
  type BlurKernel = (Frame, int, int) -> Pixel

  /** The blurred copy of a frame: same shape, each pixel given by the kernel. */
  function Blur(kernel: BlurKernel, f: Frame): (g: Frame)
    ensures SameShape(g, f)
    ensures Rectangular(f) ==> Rectangular(g)
    ensures forall r, c :: 0 <= r < |f| && 0 <= c < |f[r]| ==> g[r][c] == kernel(f, r, c)
  {
    seq(|f|, r requires 0 <= r < |f| => seq(|f[r]|, c => kernel(f, r, c)))
  }

  /** Pixel `(r, c)` lies in the region `frame[y:y+h, x:x+w]` of box `b` in a
      frame of `height` rows and `width` columns. */
  predicate InRegion(height: nat, width: nat, b: Box, r: int, c: int)
  {
    r in Indices(height, b.y, b.y + b.height) && c in Indices(width, b.x, b.x + b.width)
  }

  /** `dst[y:y+h, x:x+w] = src[y:y+h, x:x+w]` for box `b = [x, y, w, h]`. */
  function CopyRegion(dst: Frame, src: Frame, b: Box): (g: Frame)
    requires Rectangular(dst) && SameShape(src, dst)
    ensures SameShape(g, dst) && Rectangular(g)
    ensures forall r, c :: 0 <= r < |dst| && 0 <= c < |dst[r]| ==>
      g[r][c] == if InRegion(|dst|, Width(dst), b, r, c) then src[r][c] else dst[r][c]
  {
    seq(|dst|, r requires 0 <= r < |dst| =>
      seq(|dst[r]|, c requires 0 <= c < |dst[r]| =>
        if InRegion(|dst|, Width(dst), b, r, c) then src[r][c] else dst[r][c]))
  }
}

=== FILE: numeric.dfy ===
/** The numeric primitives the decoder relies on: C-style truncation (numpy's
    `astype("int")` and Python's `int(...)` on a float) and `np.argmax`. */
module Numeric {

  /** Truncation toward zero: the integer between 0 and `x` nearest to `x`. */
  function Trunc(x: real): (n: int)
    ensures 0.0 <= x ==> n as real <= x < n as real + 1.0
    ensures x < 0.0 ==> n as real - 1.0 < x <= n as real
  {
    if x >= 0.0 then x.Floor else -((-x).Floor)
  }

  /** Truncation never moves a value away from zero and keeps its sign. */
  lemma TruncTowardZero(x: real)
    ensures 0.0 <= x ==> 0 <= Trunc(x) && Trunc(x) as real <= x
    ensures x <= 0.0 ==> Trunc(x) <= 0 && x <= Trunc(x) as real
  {
  }

  /** Truncating `a - b / 2` for integers `a`, `b` is the integer division of
      `2a - b` by 2 rounded toward zero: exact when `b` is even, and otherwise
      half a pixel toward zero. */
  lemma {:induction false} TruncHalfDifference(a: int, b: int)
    ensures 2 * a - b >= 0 ==> Trunc(a as real - b as real / 2.0) == (2 * a - b) / 2
    ensures 2 * a - b < 0 ==> Trunc(a as real - b as real / 2.0) == -((b - 2 * a) / 2)
    ensures b % 2 == 0 ==> Trunc(a as real - b as real / 2.0) == a - b / 2
  {
    var d := 2 * a - b;
    var x := a as real - b as real / 2.0;
    assert x == d as real / 2.0;
    var q := if d >= 0 then d / 2 else -((-d) / 2);
    if d >= 0 {
      assert d == 2 * (d / 2) + d % 2;
      assert q as real <= x < q as real + 1.0;
    } else {
      assert -d == 2 * ((-d) / 2) + (-d) % 2;
      assert q as real - 1.0 < x <= q as real;
    }
    if b % 2 == 0 {
      assert b == 2 * (b / 2);
      assert x == (a - b / 2) as real;
    }
  }

  /** `np.argmax`: the first index holding the maximum value. */
  function ArgMax(s: seq<real>): (k: nat)
    requires |s| > 0
    ensures k < |s|
    ensures forall j :: 0 <= j < |s| ==> s[j] <= s[k]
    ensures forall j :: 0 <= j < k ==> s[j] < s[k]
  {
    if |s| == 1 then 0
    else
      var k := ArgMax(s[..|s| - 1]);
      if s[|s| - 1] > s[k] then |s| - 1 else k
  }

  /** The first maximal index is unique: any index that is maximal and beats
      everything before it is the one `ArgMax` returns. */
  lemma ArgMaxUnique(s: seq<real>, k: nat)
    requires k < |s|
    requires forall j :: 0 <= j < |s| ==> s[j] <= s[k]
    requires forall j :: 0 <= j < k ==> s[j] < s[k]
    ensures ArgMax(s) == k
  {
  }
}

=== FILE: outcome.dfy ===
/** Failure-carrying results for the per-frame pipeline.
    The script never catches an exception: a raised error ends the run, so
    an `Err` here simply marks the input on which the frame loop stops. */
module Outcome {

  /** The two Python exceptions the modelled code can raise. */
  datatype Exception =
    | ValueError   // np.argmax over an empty score vector
    | IndexError   // an index past the end of `boxes`, `classIDs` or `LABELS`

  datatype Option<+T> = None | Some(value: T)

  datatype Result<+T> = Ok(value: T) | Err(error: Exception)
}

=== FILE: pipeline.dfy ===
/** One iteration of the frame loop between the forward pass and the
    drawing: decode the layer outputs, suppress, and blur. */
module Pipeline {
  import opened Outcome
  import opened Geometry
  import opened Decoder
  import opened Image
  import opened BlurPolicy

  /** `cv2.dnn.NMSBoxes(boxes, confidences, score_threshold, nms_threshold)`,
      left opaque: it returns the indices it keeps. */
  type Suppressor = (seq<Box>, seq<real>, real, real) -> seq<nat>

  /** The options of one run: `--confidence`, `--threshold` and the blur
      options. */
  datatype Config = Config(confidence: real, threshold: real, blur: BlurConfig)

  /** The frame after decoding, suppression and blurring. A row without class
      scores raises `ValueError`; a kept index outside the lists, or a class
      ID without a label, raises `IndexError` when the box and its label are
      looked up. */
  function ProcessFrame(frame: Frame, layerOutputs: seq<seq<Row>>, labels: seq<string>,
                        cfg: Config, nms: Suppressor, kernel: BlurKernel): (r: Result<Frame>)
    requires Rectangular(frame)
    ensures r.Ok? ==> Rectangular(r.value) && SameShape(r.value, frame)
    ensures r.Err? && r.error == ValueError <==>
      exists li, ri :: 0 <= li < |layerOutputs| && 0 <= ri < |layerOutputs[li]| && |layerOutputs[li][ri]| <= 5
    ensures var d := DecodeAll(layerOutputs, Width(frame), |frame|, cfg.confidence);
      r.Err? && r.error == IndexError <==>
      d.Ok? && !WellIndexed(d.value, labels, nms(d.value.boxes, d.value.confidences, cfg.confidence, cfg.threshold))
    ensures var d := DecodeAll(layerOutputs, Width(frame), |frame|, cfg.confidence);
      r.Ok? ==> (d.Ok? &&
                 var idxs := nms(d.value.boxes, d.value.confidences, cfg.confidence, cfg.threshold);
                 WellIndexed(d.value, labels, idxs) &&
                 r.value == ApplyBlur(frame, kernel, d.value, labels, cfg.blur, idxs))
  {
    DecodeAllFails(layerOutputs, Width(frame), |frame|, cfg.confidence);
    match DecodeAll(layerOutputs, Width(frame), |frame|, cfg.confidence)
    case Err(e) => Err(e)
    case Ok(dets) =>
      var idxs := nms(dets.boxes, dets.confidences, cfg.confidence, cfg.threshold);
      if WellIndexed(dets, labels, idxs) then Ok(ApplyBlur(frame, kernel, dets, labels, cfg.blur, idxs))
      else Err(IndexError)
  }

  /** When suppression keeps nothing the frame passes through unchanged,
      whatever the blur flags, including both flags together. */
  lemma NothingKeptFrameUnchanged(frame: Frame, layerOutputs: seq<seq<Row>>, labels: seq<string>,
                                  cfg: Config, nms: Suppressor, kernel: BlurKernel)
    requires Rectangular(frame)
    requires DecodeAll(layerOutputs, Width(frame), |frame|, cfg.confidence).Ok?
    requires var dets := DecodeAll(layerOutputs, Width(frame), |frame|, cfg.confidence).value;
      nms(dets.boxes, dets.confidences, cfg.confidence, cfg.threshold) == []
    ensures ProcessFrame(frame, layerOutputs, labels, cfg, nms, kernel) == Ok(frame)
  {
  }

  /** With both flags set and something kept, the whole frame is blurred. */
  lemma BothFlagsBlurWholeFrame(frame: Frame, layerOutputs: seq<seq<Row>>, labels: seq<string>,
                                cfg: Config, nms: Suppressor, kernel: BlurKernel)
    requires Rectangular(frame)
    requires cfg.blur.blurInside && cfg.blur.blurOutside
    requires DecodeAll(layerOutputs, Width(frame), |frame|, cfg.confidence).Ok?
    requires var dets := DecodeAll(layerOutputs, Width(frame), |frame|, cfg.confidence).value;
      var idxs := nms(dets.boxes, dets.confidences, cfg.confidence, cfg.threshold);
      |idxs| > 0 && WellIndexed(dets, labels, idxs)
    ensures ProcessFrame(frame, layerOutputs, labels, cfg, nms, kernel) == Ok(Blur(kernel, frame))
  {
  }
}

=== FILE: pyslice.dfy ===
/** Which positions a step-1 slice `a[start:stop]` selects, as Python lists
    and numpy arrays define it. */
module PySlice {

  /** A slice bound as the slice machinery adjusts it for a dimension of
      length `n`: a negative bound counts from the end, and the result is
      clipped into `[0, n]`. */
  function Adjust(n: nat, i: int): (k: nat)
    ensures k <= n
  {
    if i < 0 then (if i + n < 0 then 0 else i + n)
    else if i > n then n
    else i
  }

  /** The positions `a[start:stop]` selects when `|a| == n`. */
  function Indices(n: nat, start: int, stop: int): (s: set<int>)
    ensures forall i :: i in s <==>
      0 <= i < n &&
      (if start < 0 then n + start <= i else start <= i) &&
      (if stop < 0 then i < n + stop else i < stop)
  {
    Range(Adjust(n, start), Adjust(n, stop))
  }

  /** The integers `lo <= i < hi`, empty when `hi <= lo`. */
  function Range(lo: int, hi: int): (s: set<int>)
    ensures forall i :: i in s <==> lo <= i < hi
    decreases hi - lo
  {
    if hi <= lo then {} else {lo} + Range(lo + 1, hi)
  }

  /** With non-negative bounds the slice is the plain range clipped to the
      dimension. */
  lemma NonNegativeBounds(n: nat, start: int, stop: int, i: int)
    requires 0 <= start && 0 <= stop
    ensures i in Indices(n, start, stop) <==> start <= i < stop && i < n
  {
  }

  /** A region that starts before position 0 (a negative start, but not
      below `-n`) and whose end is not negative and no later than `n + start`
      selects nothing at all:
      the start counts from the far end, to `n + start`, which is not before
      the end. For `n == 640`, `[-10:40]` is the empty slice `[630:40]`. */
  lemma NegativeStartSelectsNothing(n: nat, start: int, stop: int)
    requires 0 <= n + start && start < 0
    requires 0 <= stop <= n + start
    ensures Indices(n, start, stop) == {}
  {
  }
}

=== FILE: pystr.dfy ===
/** Python's `str.split(sep)` for a one-character separator, its inverse
    `sep.join(fields)`, and the notion of "a field of a separated list". */
module PyStr {

  /** The position of the first `sep` in `t`, or `|t|` when there is none. */
  function FirstSep(t: string, sep: char): (p: nat)
    ensures p <= |t|
  {
    if |t| == 0 || t[0] == sep then 0 else 1 + FirstSep(t[1..], sep)
  }

  /** `FirstSep` finds the first separator: none before it, and one at it
      unless it is the end of the string. */
  lemma {:induction false} FirstSepIsFirst(t: string, sep: char)
    ensures forall m :: 0 <= m < FirstSep(t, sep) ==> t[m] != sep
    ensures FirstSep(t, sep) < |t| ==> t[FirstSep(t, sep)] == sep
  {
    if |t| > 0 && t[0] != sep {
      FirstSepIsFirst(t[1..], sep);
      assert forall m :: 1 <= m < |t| ==> t[m] == t[1..][m - 1];
    }
  }

  /** The fields of `s` between occurrences of `sep`, as Python's
      `s.split(sep)` returns them: empty fields are kept, and splitting the
      empty string yields the single field "". */
  function Split(s: string, sep: char): (fields: seq<string>)
    ensures |fields| >= 1
    decreases |s|
  {
    var p := FirstSep(s, sep);
    if p == |s| then [s] else [s[..p]] + Split(s[p + 1..], sep)
  }

  /** Python's `sep.join(fields)`. */
  function Join(fields: seq<string>, sep: char): string
    requires |fields| >= 1
  {
    if |fields| == 1 then fields[0]
    else fields[0] + [sep] + Join(fields[1..], sep)
  }

  /** `s[i..j]` is delimited: it begins at the start of `s` or just after a
      separator, and ends at the end of `s` or just before a separator. */
  ghost predicate Delimited(s: string, sep: char, i: int, j: int)
  {
    0 <= i <= j <= |s| && (i == 0 || s[i - 1] == sep) && (j == |s| || s[j] == sep)
  }

  /** `item` is a field of `s`: it occupies a delimited slice of `s` and
      contains no separator itself. */
  ghost predicate IsField(s: string, sep: char, item: string)
  {
    sep !in item &&
    exists i, j :: Delimited(s, sep, i, j) && s[i..j] == item
  }

  /** No field contains the separator. */
  lemma {:induction false} SplitFieldsSepFree(s: string, sep: char)
    ensures forall k :: 0 <= k < |Split(s, sep)| ==> sep !in Split(s, sep)[k]
    decreases |s|
  {
    var p := FirstSep(s, sep);
    FirstSepIsFirst(s, sep);
    if p < |s| {
      var rest := s[p + 1..];
      SplitFieldsSepFree(rest, sep);
      assert forall k :: 1 <= k < |Split(s, sep)| ==> Split(s, sep)[k] == Split(rest, sep)[k - 1];
      assert sep !in s[..p];
    }
  }

  /** Joining the fields of a split gives the original string back. */
  lemma {:induction false} JoinSplit(s: string, sep: char)
    ensures Join(Split(s, sep), sep) == s
    decreases |s|
  {
    var p := FirstSep(s, sep);
    FirstSepIsFirst(s, sep);
    if p < |s| {
      var rest := s[p + 1..];
      JoinSplit(rest, sep);
      var fields := Split(s, sep);
      assert fields[1..] == Split(rest, sep);
      assert s == s[..p] + [sep] + rest;
    }
  }

  /** A string without separators is a single field. */
  lemma SplitNoSep(s: string, sep: char)
    requires sep !in s
    ensures Split(s, sep) == [s]
  {
    FirstSepIsFirst(s, sep);
    forall k | 0 <= k < |s| ensures s[k] != sep {
      assert s[k] in s;
    }
  }

  /** The first separator of `a + [sep] + b` is the first one of `a`, or the
      added one when `a` has none. */
  lemma FirstSepAppend(a: string, b: string, sep: char)
    ensures FirstSep(a + [sep] + b, sep) == FirstSep(a, sep)
  {
    var s := a + [sep] + b;
    var p := FirstSep(a, sep);
    var q := FirstSep(s, sep);
    FirstSepIsFirst(a, sep);
    FirstSepIsFirst(s, sep);
    assert s[p] == sep;
    assert forall k :: 0 <= k < p ==> s[k] == a[k];
  }

  /** Splitting distributes over a separator: the fields of `a + [sep] + b`
      are the fields of `a` followed by the fields of `b`. */
  lemma {:induction false} SplitAppend(a: string, b: string, sep: char)
    ensures Split(a + [sep] + b, sep) == Split(a, sep) + Split(b, sep)
    decreases |a|
  {
    var s := a + [sep] + b;
    var p := FirstSep(a, sep);
    FirstSepAppend(a, b, sep);
    assert s[..p] == a[..p];
    if p == |a| {
      assert s[p + 1..] == b;
      assert a[..p] == a;
    } else {
      var t := a[p + 1..];
      assert s[p + 1..] == t + [sep] + b;
      SplitAppend(t, b, sep);
    }
  }

  /** The round trip in the other direction: splitting the join of
      separator-free fields recovers the fields. */
  lemma {:induction false} SplitJoin(fields: seq<string>, sep: char)
    requires |fields| >= 1
    requires forall k :: 0 <= k < |fields| ==> sep !in fields[k]
    ensures Split(Join(fields, sep), sep) == fields
  {
    if |fields| == 1 {
      SplitNoSep(fields[0], sep);
    } else {
      var rest := fields[1..];
      assert forall k :: 0 <= k < |rest| ==> rest[k] == fields[k + 1];
      SplitJoin(rest, sep);
      SplitNoSep(fields[0], sep);
      var joined := Join(rest, sep);
      assert Join(fields, sep) == fields[0] + [sep] + joined;
      SplitAppend(fields[0], joined, sep);
      assert [fields[0]] + rest == fields;
    }
  }

  /** Every field of `s` occupies a delimited slice of `s`; the lemma
      returns where. */
  lemma {:induction false} FieldPlace(s: string, sep: char, item: string) returns (i: nat, j: nat)
    requires item in Split(s, sep)
    ensures Delimited(s, sep, i, j) && s[i..j] == item
    decreases |s|, 1
  {
    var p := FirstSep(s, sep);
    FirstSepIsFirst(s, sep);
    if p == |s| {
      assert Split(s, sep) == [s];
      i, j := 0, |s|;
    } else if item == s[..p] {
      i, j := 0, p;
    } else {
      assert Split(s, sep) == [s[..p]] + Split(s[p + 1..], sep);
      i, j := LaterFieldPlace(s, sep, p, item);
    }
  }

  /** `FieldPlace` for a field after the first separator `s[p]`. */
  lemma {:induction false} LaterFieldPlace(s: string, sep: char, p: nat, item: string) returns (i: nat, j: nat)
    requires p < |s| && s[p] == sep
    requires item in Split(s[p + 1..], sep)
    ensures Delimited(s, sep, i, j) && s[i..j] == item
    decreases |s|, 0
  {
    var a, b := FieldPlace(s[p + 1..], sep, item);
    ShiftPlace(s, sep, p, a, b);
    i, j := p + 1 + a, p + 1 + b;
  }

  /** A delimited slice of `s[p + 1..]`, where `s[p]` is a separator, is a
      delimited slice of `s`. */
  lemma ShiftPlace(s: string, sep: char, p: nat, a: nat, b: nat)
    requires p < |s| && s[p] == sep
    requires Delimited(s[p + 1..], sep, a, b)
    ensures Delimited(s, sep, p + 1 + a, p + 1 + b)
    ensures s[p + 1 + a..p + 1 + b] == s[p + 1..][a..b]
  {
  }

  /** Membership in the split is exactly being a field: `item` is one of the
      values `s.split(sep)` returns iff it sits between separators (or the
      ends of `s`) with no separator inside. */
  lemma FieldIff(s: string, sep: char, item: string)
    ensures item in Split(s, sep) <==> IsField(s, sep, item)
  {
    if item in Split(s, sep) {
      var i, j := FieldPlace(s, sep, item);
      SplitFieldsSepFree(s, sep);
    }
    if IsField(s, sep, item) {
      var i, j :| Delimited(s, sep, i, j) && s[i..j] == item;
      PlacedIsField(s, sep, i, j);
    }
  }

  /** The converse half of `FieldIff`, for one placement `s[i..j]`. */
  lemma PlacedIsField(s: string, sep: char, i: nat, j: nat)
    requires Delimited(s, sep, i, j) && sep !in s[i..j]
    ensures s[i..j] in Split(s, sep)
  {
    var item := s[i..j];
    var tail := s[i..];
    assert tail[..j - i] == item;
    FirstFieldOf(tail, sep, j - i);
    if i > 0 {
      var pre := s[..i - 1];
      assert s == pre + [sep] + tail;
      SplitAppend(pre, tail, sep);
      assert Split(s, sep)[|Split(pre, sep)|] == item;
    }
  }

  /** A prefix without separators that ends at a separator or at the end of
      `t` is the first field of `t`. */
  lemma FirstFieldOf(t: string, sep: char, j: nat)
    requires j <= |t| && sep !in t[..j]
    requires j == |t| || t[j] == sep
    ensures Split(t, sep)[0] == t[..j]
  {
    var p := FirstSep(t, sep);
    FirstSepIsFirst(t, sep);
    forall k | 0 <= k < j ensures t[k] != sep {
      assert t[k] in t[..j];
    }
  }
}
